=== FILE: README.md ===
# Wallet session and contract gate of the payment-scheduling dashboard

This Dafny project models the small amount of logic the dashboard owns. The rest of it is presentational React. The model covers three parts:

- **The authentication context** (`context/AuthContext.tsx`). The provider holds `{client, connected, walletAddress, chainId, isLoading, error}` and changes it under client creation, `resetState`, `logIn` and `logOut`. `logIn` reads the wallet address from the first CAIP-10 account ID (`namespace:reference:address`) and the chain from the first CAIP-2 chain ID (`namespace:reference`). Both are read with JavaScript's `split(':')`, modelled exactly in `caip.dfy`: empty fields, and `undefined` for an index past the last field.
- **The wallet-connection component** (`components/WalletConnection.tsx`). It covers the re-entrancy guard of `handleConnect`, the persisted `walletConnected` flag (a boolean in the state), `handleDisconnect`, the auto-connect effect and `truncateAddress`.
- **The web3 service** (`services/web3Service.ts`). This is a record whose `contract` field is bound or not. `initialize` switches the wallet to the Flow EVM testnet (chain `0x221`), adds the network when the wallet reports error code 4902, and only then binds a contract. All seven contract operations pass through the `ensureContractInitialized` gate. `getWalletAddress` never throws.

Every awaited result is an input value. This covers `openModal` and `disconnect` (each raced against its timer), `provider.request`, `getSigner`, and the contract's replies. A timeout is a rejection with the timer's `Error` message, exactly as the catch blocks test for it. Thrown values keep what the code inspects: `instanceof Error`, `.message` and `.code`. The ethers helpers `parseEther` and `formatEther` are opaque function-valued fields of an `Ethers` record. Every transition is a pure function on immutable records. `WalletConnection.Run` replays a sequence of component events.

Five behaviours of the code are worth knowing. The model follows the code in each case and proves what it does:

- **`clientInitialized` is never set.** The component destructures it (components/WalletConnection.tsx:9), but the context value (context/AuthContext.tsx:6-14) has no such field, so it is always `undefined`. The model takes it as a parameter. `SuppliedClientInitialized` is the value actually supplied (false). With it, the Connect guard always returns early and auto-connect never fires (`SuppliedFlagNeverConnects`).
- **A failed connect still persists the flag.** `logIn` catches every rejection, so `await logIn()` always resolves. A connect attempt that fails therefore still writes `walletConnected = 'true'` and arms auto-connect (`FailedConnectPersistsFlag`). The `removeItem` branch at components/WalletConnection.tsx:27-30 is never reached through `logIn`; only a throwing `localStorage.setItem` could reach it, which the model does not consider.
- **Auto-connect would retry after a failure.** If the client flag were supplied, a failed connect would re-arm the auto-connect effect at once (`AutoConnectRetriesAfterFailure`).
- **The disconnect-timeout message is never shown.** On a disconnect timeout the message 'Disconnect timed out. Please try again.' is written and then overwritten by `resetState`'s `null` (`LogOutTimeoutLeavesNoError`).
- **A session can connect without an address.** The session check only requires a non-empty first account. An account ID with fewer than two colons connects with no address (`LogInConnectsWithoutAddress`). So "connected" does not imply "address present". The converse does hold: while disconnected, address and chain are empty (`TransitionsKeepSignedOutEmpty`).

## Model

| member | source | states |
|---|---|---|
| Caip.Split | context/AuthContext.tsx:99-100 | `split(':')` yields one more field than there are separators, and no field contains the separator |
| Caip.SplitJoin | context/AuthContext.tsx:99-100 | joining the fields of a split with the separator gives back the original string |
| Caip.JoinSplit | context/AuthContext.tsx:99-100 | splitting a join of separator-free fields gives back exactly those fields |
| Caip.Field | context/AuthContext.tsx:99-100 | indexing the split result is defined exactly when the index is at most the number of separators (otherwise `undefined`), and a field never contains the separator |
| Caip.AccountAddressOfCaip10 | context/AuthContext.tsx:99 | for a CAIP-10 account ID `namespace:reference:address` the third field is exactly the address |
| Caip.ChainReferenceOfCaip2 | context/AuthContext.tsx:100 | for a CAIP-2 chain ID `namespace:reference` the second field is exactly the reference |
| Caip.AccountAddressMissing | context/AuthContext.tsx:99 | the address read is `undefined` exactly when the account ID has fewer than two colons |
| JsValues.MessageOr | context/AuthContext.tsx:109 | an `Error` contributes its own message; any other thrown value gives the fallback text |
| JsValues.Raise | context/AuthContext.tsx:96 | `new Error(m)` is an Error whose message is exactly `m` |
| AuthContext.InitClient | context/AuthContext.tsx:38-59 | creating the client records it; a failure records the Error's own message (the fallback text for a non-Error) and leaves the client as it was; the session is untouched |
| AuthContext.ResetState | context/AuthContext.tsx:64-69 | leaves no address, no chain, not connected and no error; client and loading flag unchanged |
| AuthContext.LogIn | context/AuthContext.tsx:71-116 | without a client only the error changes, to 'OKX client not initialized'; with one, loading ends false; the error is cleared exactly when the session has a first eip155 account, and then the wallet is connected with field 2 of that account's split as address and field 1 of the first chain's split as chain; no failure path touches connection, address or chain; logIn never disconnects |
| AuthContext.LogInReadsFields | context/AuthContext.tsx:99-104 | for any non-empty first account, a log-in stores field 2 of `account.split(':')` as the address and field 1 of the first chain's split as the chain (none without a chain), connected, no error |
| AuthContext.LogInStoresCaipFields | context/AuthContext.tsx:99-104 | a CAIP-10 first account stores its address part, the chain is the reference of the first chain ID (or none without one), connected is set, no error |
| AuthContext.LogInReadsRequestedChain | context/AuthContext.tsx:81-100 | a session on the requested `eip155:747` chain stores chain id `747` |
| AuthContext.LogInRejectsInvalidSession | context/AuthContext.tsx:95-111 | a session with no usable first account ends with error 'Invalid session response', loading false, and nothing else changed |
| AuthContext.LogInFailureMessage | context/AuthContext.tsx:105-111 | a timeout shows 'Connection timed out. Please try again.', another Error shows its message, a non-Error shows 'Failed to connect wallet'; the session is untouched |
| AuthContext.LogInConnectsWithoutAddress | context/AuthContext.tsx:95-104 | any non-empty first account ID with fewer than two colons passes the session check and connects with no address and no error, whatever the other accounts and chains |
| AuthContext.LogOut | context/AuthContext.tsx:118-147 | without a client only the error changes; with one, loading ends false; a completed or timed-out disconnect clears connection, address, chain and error; any other rejection keeps the session and shows the Error's message, or 'Failed to disconnect wallet' for a non-Error; logOut never connects |
| AuthContext.LogOutTimeoutLeavesNoError | context/AuthContext.tsx:136-138 | after a disconnect timeout the state equals the reset state with loading off, so the timeout message does not survive |
| AuthContext.TransitionsKeepSignedOutEmpty | context/AuthContext.tsx:64-147 | client creation, reset, log-in and log-out all keep address and chain empty while not connected |
| AuthContext.CompletedLogOutReturnsToInitial | context/AuthContext.tsx:118-147 | from any state with a client, a completed disconnect yields the initial state with the client kept: not connected, no address, no chain, no error, not loading |
| WalletConnection.HandleConnect | components/WalletConnection.tsx:19-34 | a call while connecting or without the client flag changes nothing; otherwise exactly one logIn runs, and whatever its outcome the flag is persisted, auto-connect is armed and connecting ends |
| WalletConnection.Mount | components/WalletConnection.tsx:15-17 | the mount effect sets `mounted` and leaves the context state alone |
| WalletConnection.OverlappingConnectIsNoOp | components/WalletConnection.tsx:19-21 | a click while an earlier connect is still awaiting logIn changes nothing, so overlapping clicks run logIn once |
| WalletConnection.HandleDisconnect | components/WalletConnection.tsx:36-44 | runs logOut once, then the persisted flag is cleared and auto-connect is disarmed |
| WalletConnection.AutoConnect | components/WalletConnection.tsx:51-58 | the effect runs a connect exactly when mounted, client flag set, not connected, not loading, not connecting, auto-connect armed and the stored flag is 'true': one logIn, then the flag persisted, auto-connect kept armed and connecting ended; otherwise nothing changes |
| WalletConnection.TruncateAddress | components/WalletConnection.tsx:46-49 | the empty string stays empty; otherwise the first min(6, n) characters, '...', and the last min(4, n) characters |
| WalletConnection.TruncateAddressKeepsEnds | components/WalletConnection.tsx:46-49 | an address of ten or more characters is its truncation's head, the hidden middle and its truncation's tail, in order |
| WalletConnection.FreshMountNeverAutoConnects | components/WalletConnection.tsx:12-58 | because auto-connect starts disarmed, the effect never fires right after mounting, whatever the stored flag |
| WalletConnection.NoAutoConnectBeforeConnectClick | components/WalletConnection.tsx:19-58 | over any sequence of events with no Connect click, auto-connect stays disarmed and the effect never fires |
| WalletConnection.SuppliedFlagNeverConnects | components/WalletConnection.tsx:9-20 | with the client flag the context actually supplies, no sequence of events connects a disconnected wallet |
| WalletConnection.AutoConnectRetriesAfterFailure | components/WalletConnection.tsx:51-58 | with the client flag set, a failed connect leaves the effect's condition true, so it fires again |
| WalletConnection.FailedConnectPersistsFlag | components/WalletConnection.tsx:19-34 | a connect whose log-in fails leaves the wallet disconnected with an error, yet persists the flag and arms auto-connect |
| Web3Service.FlowTestnetIsChain545 | services/web3Service.ts:42-55 | the chain id `0x221` denotes network 545, and the native currency has 18 decimals |
| Web3Service.SwitchToFlowTestnet | services/web3Service.ts:38-65 | the switch request comes first; exactly one add-chain request with the Flow testnet parameters follows exactly when the switch fails with code 4902; any other switch error is rethrown, and an add-chain error is rethrown |
| Web3Service.Initialize | services/web3Service.ts:12-35 | the network switch is attempted first on both platforms; a switch failure is rethrown with the service unchanged; success happens exactly when the switch succeeds and (on web) the signer is obtained, and then sets the provider (a BrowserProvider on web, the injected object on Telegram), the matching signer, and a contract bound to it; a `getSigner` failure is rethrown as is; a failure never changes signer or binding, and only a web `getSigner` failure has already replaced the provider |
| Web3Service.Perform | services/web3Service.ts:67-145 | without a bound contract every operation fails with 'Contract not initialized. Call initialize() first.' and calls nothing; otherwise at most one contract call, the one matching the operation with amounts converted and other arguments passed unchanged, made exactly when all amounts convert; a conversion error is rethrown (the first in argument order); a transaction resolves with the receipt of its confirmation or rethrows its error; `getUserBalance` resolves with `formatEther` of the raw balance and `getPaymentSchedules` with the contract's list unchanged, or rethrow |
| Web3Service.CreateScheduleConvertsAmountFirst | services/web3Service.ts:91-113 | a malformed amount is thrown before the condition value is looked at, and nothing is called |
| Web3Service.CreateScheduleSameConversion | services/web3Service.ts:102-110 | amount and condition value go through the same conversion, and the other five arguments reach the contract unchanged |
| Web3Service.InitializeOpensGate | services/web3Service.ts:12-145 | on a fresh service every operation fails at the gate; after a successful initialize every operation whose amounts convert reaches the contract; after a failed one nothing does |
| Web3Service.SignerFailureReplacesOnlyProvider | services/web3Service.ts:20-34 | on the web path, after any successful switch (direct or via add-chain), a `getSigner` failure is rethrown as is, with only the provider field replaced; the signer and the binding keep their values |
| Web3Service.GetWalletAddress | services/web3Service.ts:148-164 | never throws; returns the address exactly when a contract is bound, the provider is a BrowserProvider and the lookup succeeds, otherwise null |
| Web3Service.TelegramHasNoWalletAddress | services/web3Service.ts:148-164 | after a successful Telegram initialization the service reports no address |
| Web3Service.WebReportsSignerAddress | services/web3Service.ts:148-164 | after a successful web initialization the service reports the signer's address, or null when the lookup throws |

## Left out

- Timers are not modelled. This covers the `Promise.race` timeouts (30 s for connect, 10 s for disconnect) and the 5-second error auto-clear effect (context/AuthContext.tsx:149-154). A timeout is an input: a rejection carrying the timer's message.
- React semantics are not modelled: batching, re-render scheduling, effect dependency tracking, the provider's mount gating, and `useAuth`'s throw outside a provider. Writes are applied in program order and the last write wins. The auto-connect effect is an explicit event.
- `OKXUniversalConnectUI.init`, `openModal` and `disconnect`, `BrowserProvider`, `getSigner`/`getAddress` and `provider.request` are external I/O. Only their outcomes are modelled. The init options and `console.error` logging are not modelled.
- `parseEther` and `formatEther` are opaque functions. The 18-decimal fixed-point conversion and its decimal round trip belong to ethers and are not stated here.
- The contract's own behaviour (balances, schedule execution) is not modelled. A transaction's submission and its `tx.wait()` confirmation are one input, so submission failures and reverts are not told apart. Schedule records are opaque values returned unchanged.
- `new Contract(...)` is taken not to throw. The contract address and ABI configuration is not part of this model.
- SwitchToFlowTestnet: a thrown `null` or `undefined` would make the `error.code` read in the catch block (services/web3Service.ts:45) itself throw a `TypeError`. This case is not modelled; any other thrown value without a numeric code is rethrown, as modelled.
- `localStorage` reads and writes are taken not to throw. A `setItem` that throws (storage blocked, quota exceeded) would reach the `catch` branch of `handleConnect` (components/WalletConnection.tsx:27-30), which then removes the flag and disarms auto-connect.
- `LogIn`: `chains` is taken to be present, as the session type declares. A session without it would throw a `TypeError` whose message is engine-specific.
- TruncateAddress: lengths and slices count Unicode scalar values, while JavaScript's `slice` counts UTF-16 code units, so an address with characters outside the Basic Multilingual Plane truncates differently (and JavaScript may split a surrogate pair, which a Dafny string cannot hold). Wallet addresses are ASCII hex, where the two agree.
- `TruncateAddress` takes a string. At its call site `walletAddress!` may be `null` or `undefined`, and the `!address` guard maps those to `''` as well.
- JavaScript numbers for `frequency`, `nextPaymentDate`, `conditionType` and the `executePayment` index are integers here. Fractional and non-finite numbers are not modelled. Nothing guards against a stale schedule index, and nothing in the model does either.
- The dashboard and landing pages (`app/`) are pure UI and are not part of this model. `handleSubmit` only logs.

=== FILE: auth_context.dfy ===
/** The wallet-session state held by the authentication context provider
    (context/AuthContext.tsx): client creation, `resetState`, `logIn` and `logOut`
    as pure transitions on an immutable state record. The awaited results of the
    wallet client (`openModal`, `disconnect`, and the 30 s / 10 s timeout races
    around them) are inputs. */
module AuthContext {
  import opened Wrappers
  import opened JsValues
  import Caip

  const InitFallbackMessage := "Failed to initialize OKX UI"
  const ClientMissingMessage := "OKX client not initialized"
  const InvalidSessionMessage := "Invalid session response"
  /** The message of the error the 30-second timer rejects the `openModal` race with. */
  const ConnectTimeoutReason := "Connection timeout"
  const ConnectTimeoutMessage := "Connection timed out. Please try again."
  const ConnectFallbackMessage := "Failed to connect wallet"
  /** The message of the error the 10-second timer rejects the `disconnect` race with. */
  const DisconnectTimeoutReason := "Disconnect timeout"
  const DisconnectTimeoutMessage := "Disconnect timed out. Please try again."
  const DisconnectFallbackMessage := "Failed to disconnect wallet"

  /** One namespace of a wallet session (types/okx.d.ts). `accounts` is optional
      because the code reads it with optional chaining. */
  datatype Namespace = Namespace(accounts: Option<seq<string>>, chains: seq<string>)

  /** A wallet session; `eip155` is `None` when `namespaces` or `namespaces.eip155` is missing. */
  datatype WalletSession = WalletSession(eip155: Option<Namespace>)

  /** How the race between `openModal` and the connect timer settled. `Opened(None)`
      is a modal that resolved with `null` or `undefined`; a timeout is a rejection
      with an `Error` whose message is `ConnectTimeoutReason`. */
  datatype ModalOutcome = Opened(session: Option<WalletSession>) | ModalRejected(reason: Thrown)

  /** How the race between `disconnect` and the disconnect timer settled. */
  datatype DisconnectOutcome = Disconnected | DisconnectRejected(reason: Thrown)

  /** How `OKXUniversalConnectUI.init` settled. */
  datatype ClientOutcome = ClientCreated | ClientFailed(reason: Thrown)

  /** The provider's state; `clientPresent` stands for `client !== null`. */
  datatype AuthState = AuthState(
    clientPresent: bool,
    connected: bool,
    walletAddress: Option<string>,
    chainId: Option<string>,
    isLoading: bool,
    error: Option<string>)

  /** The state every `useState` call starts from. */
  const Initial: AuthState := AuthState(false, false, None, None, false, None)

  /** No address and no chain while not connected. */
  predicate SignedOutIsEmpty(s: AuthState) {
    !s.connected ==> s.walletAddress.None? && s.chainId.None?
  }

  /** What the view shows as the connection: flag, address and chain. */
  predicate SameSession(a: AuthState, b: AuthState) {
    a.connected == b.connected && a.walletAddress == b.walletAddress && a.chainId == b.chainId
  }

  /** The `initClient` effect: stores the client, or surfaces why it could not be created. */
  function InitClient(s: AuthState, outcome: ClientOutcome): (r: AuthState)
    ensures SameSession(r, s) && r.isLoading == s.isLoading
    ensures r.clientPresent <==> s.clientPresent || outcome.ClientCreated?
    ensures outcome.ClientCreated? ==> r.error == s.error
    ensures outcome.ClientFailed? ==> r.error.Some?
    ensures outcome.ClientFailed? && outcome.reason.ErrorObject? ==> r.error == Some(outcome.reason.message)
    ensures outcome.ClientFailed? && outcome.reason.OtherValue? ==> r.error == Some(InitFallbackMessage)
  {
    match outcome
    case ClientCreated => s.(clientPresent := true)
    case ClientFailed(t) => s.(error := Some(MessageOr(t, InitFallbackMessage)))
  }

  /** `resetState`: forget the session and any error. */
  function ResetState(s: AuthState): (r: AuthState)
    ensures !r.connected && r.walletAddress.None? && r.chainId.None? && r.error.None?
    ensures r.clientPresent == s.clientPresent && r.isLoading == s.isLoading
  {
    s.(walletAddress := None, chainId := None, connected := false, error := None)
  }

  /** The two writes both `logIn` and `logOut` make before awaiting the client. */
  function BeginRequest(s: AuthState): AuthState {
    s.(isLoading := true, error := None)
  }

  /** `session?.namespaces?.eip155?.accounts?.[0]` when it is truthy (a non-empty string). */
  function FirstAccount(session: Option<WalletSession>): Option<string>
  {
    if session.Some? && session.value.eip155.Some? then
      var accounts := session.value.eip155.value.accounts;
      if accounts.Some? && |accounts.value| > 0 && accounts.value[0] != "" then Some(accounts.value[0])
      else None
    else None
  }

  /** `chains[0]?.split(':')[1] ?? null` */
  function FirstChainReference(chains: seq<string>): Option<string>
  {
    if |chains| == 0 then None else Caip.ChainReference(chains[0])
  }

  /** What `logIn` takes from the session: address and chain (either may be absent). */
  datatype Credentials = Credentials(address: Option<string>, chain: Option<string>)

  /** The body of `logIn`'s `try` block after the await: validate the session,
      then read the address and chain from it. */
  function ReadSession(outcome: ModalOutcome): Result<Credentials, Thrown>
  {
    match outcome
    case ModalRejected(t) => Failure(t)
    case Opened(session) =>
      match FirstAccount(session)
      case None => Failure(Raise(InvalidSessionMessage))
      case Some(account) =>
        Success(Credentials(Caip.AccountAddress(account),
                            FirstChainReference(session.value.eip155.value.chains)))
  }

  /** The message `logIn`'s `catch` block surfaces for a rejection. */
  function ConnectErrorMessage(t: Thrown): string {
    if HasMessage(t, ConnectTimeoutReason) then ConnectTimeoutMessage
    else MessageOr(t, ConnectFallbackMessage)
  }

  /** `logIn`, from the call to the end of its `finally` block. */
  function LogIn(s: AuthState, outcome: ModalOutcome): (r: AuthState)
    ensures r.clientPresent == s.clientPresent
    // without a client only the error changes
    ensures !s.clientPresent ==> r == s.(error := Some(ClientMissingMessage))
    ensures s.clientPresent ==> !r.isLoading
    // the error is cleared exactly when a usable session came back, and then the wallet is connected
    ensures s.clientPresent ==> (r.error.None? <==> outcome.Opened? && FirstAccount(outcome.session).Some?)
    ensures r.error.None? ==> r.connected
    // no failure path touches the session
    ensures r.error.Some? ==> SameSession(r, s)
    // logIn never disconnects
    ensures s.connected ==> r.connected
    // a success stores field 2 of the first account and field 1 of the first chain, whatever their shape
    ensures s.clientPresent && outcome.Opened? && FirstAccount(outcome.session).Some? ==>
              && r.walletAddress == Caip.Field(FirstAccount(outcome.session).value, Caip.Colon, 2)
              && r.chainId == (var chains := outcome.session.value.eip155.value.chains;
                               if |chains| == 0 then None else Caip.Field(chains[0], Caip.Colon, 1))
  {
    if !s.clientPresent then s.(error := Some(ClientMissingMessage))
    else
      var pending := BeginRequest(s);
      var settled :=
        match ReadSession(outcome)
        case Success(c) => pending.(walletAddress := c.address, chainId := c.chain, connected := true)
        case Failure(t) => pending.(error := Some(ConnectErrorMessage(t)));
      settled.(isLoading := false)
  }

  /** The message `logOut`'s `catch` block writes for a non-timeout rejection. */
  function DisconnectErrorMessage(t: Thrown): string {
    MessageOr(t, DisconnectFallbackMessage)
  }

  /** `logOut`, from the call to the end of its `finally` block. */
  function LogOut(s: AuthState, outcome: DisconnectOutcome): (r: AuthState)
    ensures r.clientPresent == s.clientPresent
    ensures !s.clientPresent ==> r == s.(error := Some(ClientMissingMessage))
    ensures s.clientPresent ==> !r.isLoading
    // a completed or timed-out disconnect forgets the session
    ensures s.clientPresent && (outcome.Disconnected? || HasMessage(outcome.reason, DisconnectTimeoutReason)) ==>
              !r.connected && r.walletAddress.None? && r.chainId.None? && r.error.None?
    // any other rejection keeps the session and surfaces an error
    ensures s.clientPresent && outcome.DisconnectRejected? && !HasMessage(outcome.reason, DisconnectTimeoutReason) ==>
              SameSession(r, s) && r.error.Some?
    // which shows the Error's own message, or the fallback text for any other thrown value
    ensures s.clientPresent && outcome.DisconnectRejected? && !HasMessage(outcome.reason, DisconnectTimeoutReason) ==>
              r.error == Some(if outcome.reason.ErrorObject? then outcome.reason.message else DisconnectFallbackMessage)
    // logOut never connects
    ensures r.connected ==> s.connected
  {
    if !s.clientPresent then s.(error := Some(ClientMissingMessage))
    else
      var pending := BeginRequest(s);
      var settled :=
        match outcome
        case Disconnected => ResetState(pending)
        case DisconnectRejected(t) =>
          if HasMessage(t, DisconnectTimeoutReason) then
            ResetState(pending.(error := Some(DisconnectTimeoutMessage)))
          else pending.(error := Some(DisconnectErrorMessage(t)));
      settled.(isLoading := false)
  }

  /** For any non-empty first account, `logIn` stores `split(':')[2]` of that account
      and `split(':')[1]` of the first chain (or nothing without one), independently
      of each other and of the other accounts. */
  lemma LogInReadsFields(s: AuthState, account: string, more: seq<string>, chains: seq<string>)
    requires s.clientPresent && account != ""
    ensures var r := LogIn(s, Opened(Some(WalletSession(Some(Namespace(Some([account] + more), chains))))));
            && r.walletAddress == Caip.Field(account, Caip.Colon, 2)
            && r.chainId == (if |chains| == 0 then None else Caip.Field(chains[0], Caip.Colon, 1))
            && r.connected && r.error.None?
  {
    assert ([account] + more)[0] == account;
  }

  /** A successful `logIn` on a CAIP-10 account `namespace:reference:address` stores
      `address`, the reference of the first CAIP-2 chain (or nothing without one),
      and marks the wallet connected. */
  lemma LogInStoresCaipFields(s: AuthState, namespace: string, reference: string, address: string,
                              more: seq<string>, chains: seq<string>)
    requires s.clientPresent
    requires Caip.Colon !in namespace && Caip.Colon !in reference && Caip.Colon !in address
    ensures var account := namespace + [Caip.Colon] + reference + [Caip.Colon] + address;
            var r := LogIn(s, Opened(Some(WalletSession(Some(Namespace(Some([account] + more), chains))))));
            && r.connected
            && r.walletAddress == Some(address)
            && r.chainId == (if |chains| == 0 then None else Caip.ChainReference(chains[0]))
            && r.error.None? && !r.isLoading
  {
    var account := namespace + [Caip.Colon] + reference + [Caip.Colon] + address;
    Caip.AccountAddressOfCaip10(namespace, reference, address);
    assert ([account] + more)[0] == account;
    assert account != "" by { assert account[|namespace|] == Caip.Colon; }
  }

  /** The chain the modal asks for, `eip155:747`, is read back as `747`. */
  lemma LogInReadsRequestedChain(s: AuthState, account: string, more: seq<string>)
    requires s.clientPresent && account != ""
    ensures LogIn(s, Opened(Some(WalletSession(Some(Namespace(Some([account] + more), ["eip155:747"])))))).chainId
            == Some("747")
  {
    Caip.ChainReferenceOfCaip2("eip155", "747");
    assert "eip155" + [Caip.Colon] + "747" == "eip155:747";
  }

  /** A session without a first eip155 account ends in 'Invalid session response'
      and touches neither the connection flag nor the address or chain. */
  lemma LogInRejectsInvalidSession(s: AuthState, session: Option<WalletSession>)
    requires s.clientPresent
    requires FirstAccount(session).None?
    ensures LogIn(s, Opened(session)) == s.(isLoading := false, error := Some(InvalidSessionMessage))
  {
  }

  /** A timeout surfaces the retry message; any other rejection surfaces its own
      message (or the fallback for a non-Error); the session is untouched either way. */
  lemma LogInFailureMessage(s: AuthState, t: Thrown)
    requires s.clientPresent
    ensures var r := LogIn(s, ModalRejected(t));
            && SameSession(r, s) && !r.isLoading
            && (HasMessage(t, ConnectTimeoutReason) ==> r.error == Some(ConnectTimeoutMessage))
            && (t.ErrorObject? && !HasMessage(t, ConnectTimeoutReason) ==> r.error == Some(t.message))
            && (t.OtherValue? ==> r.error == Some(ConnectFallbackMessage))
  {
  }

  /** The session check (context/AuthContext.tsx:95) only checks that the first account is non-empty: an
      account ID with fewer than two colons still connects, with no address. */
  lemma LogInConnectsWithoutAddress(s: AuthState, account: string, more: seq<string>, chains: seq<string>)
    requires s.clientPresent
    requires account != "" && Caip.Occurrences(account, Caip.Colon) < 2
    ensures var r := LogIn(s, Opened(Some(WalletSession(Some(Namespace(Some([account] + more), chains))))));
            r.connected && r.walletAddress.None? && r.error.None?
  {
    assert ([account] + more)[0] == account;
  }

  /** A disconnect timeout resets the session, and `resetState`'s write of `null`
      is the last write to `error`, so the timeout message is never shown. */
  lemma LogOutTimeoutLeavesNoError(s: AuthState, code: Option<int>)
    requires s.clientPresent
    ensures var r := LogOut(s, DisconnectRejected(ErrorObject(DisconnectTimeoutReason, code)));
            r == ResetState(s).(isLoading := false)
  {
  }

  /** Every transition keeps address and chain empty while disconnected. */
  lemma TransitionsKeepSignedOutEmpty(s: AuthState, c: ClientOutcome, m: ModalOutcome, d: DisconnectOutcome)
    requires SignedOutIsEmpty(s)
    ensures SignedOutIsEmpty(InitClient(s, c))
    ensures SignedOutIsEmpty(ResetState(s))
    ensures SignedOutIsEmpty(LogIn(s, m))
    ensures SignedOutIsEmpty(LogOut(s, d))
  {
    var r := LogIn(s, m);
    if !r.connected {
      // not connected afterwards means a failure path, which keeps the session
      assert r.error.Some?;
      assert SameSession(r, s);
    }
  }

  /** A completed disconnect returns any state that has a client to the initial
      state, client kept: nothing earlier (a log-in, an error, a pending load)
      survives it. */
  lemma CompletedLogOutReturnsToInitial(s: AuthState)
    requires s.clientPresent
    ensures LogOut(s, Disconnected) == Initial.(clientPresent := true)
  {
  }
}

=== FILE: caip.dfy ===
/** JavaScript's `String.prototype.split` with a one-character separator, and the
    CAIP-10 account-ID / CAIP-2 chain-ID field reads built on it. */
module Caip {
  import opened Wrappers

  const Colon: char := ':'

  /** Number of occurrences of `c` in `s`. */
  function Occurrences(s: string, c: char): nat
  {
    if |s| == 0 then 0
    else (if s[0] == c then 1 else 0) + Occurrences(s[1..], c)
  }

  /** `s.split(sep)`: the maximal separator-free pieces of `s`, in order. The empty
      string splits into one empty field, and adjacent separators give empty fields. */
  function Split(s: string, sep: char): (fields: seq<string>)
    ensures |fields| == Occurrences(s, sep) + 1
    ensures forall i :: 0 <= i < |fields| ==> sep !in fields[i]
    decreases |s|
  {
    if |s| == 0 then [""]
    else
      var rest := Split(s[1..], sep);
      if s[0] == sep then [""] + rest
      else [[s[0]] + rest[0]] + rest[1..]
  }

  /** `fields.join(sep)`: the inverse of `Split`. */
  function Join(fields: seq<string>, sep: char): string
    requires |fields| >= 1
  {
    if |fields| == 1 then fields[0]
    else fields[0] + [sep] + Join(fields[1..], sep)
  }

  /** Joining the pieces of a split gives the original string back. */
  lemma {:induction false} SplitJoin(s: string, sep: char)
    ensures Join(Split(s, sep), sep) == s
    decreases |s|
  {
    if |s| > 0 {
      SplitJoin(s[1..], sep);
      var rest := Split(s[1..], sep);
      if s[0] == sep {
        assert Split(s, sep)[1..] == rest;
        assert s == [s[0]] + s[1..];
      } else {
        var fields := Split(s, sep);
        if |rest| == 1 {
          assert fields == [[s[0]] + rest[0]];
        } else {
          assert fields[1..] == rest[1..];
          assert Join(rest, sep) == rest[0] + [sep] + Join(rest[1..], sep);
        }
        assert s == [s[0]] + s[1..];
      }
    }
  }

  /** A separator-free string splits into itself. */
  lemma {:induction false} SplitPlain(a: string, sep: char)
    requires sep !in a
    ensures Split(a, sep) == [a]
    decreases |a|
  {
    if |a| > 0 {
      SplitPlain(a[1..], sep);
      assert [a[0]] + a[1..] == a;
    }
  }

  /** A leading separator-free field followed by the separator splits off as one field. */
  lemma {:induction false} SplitCons(a: string, sep: char, b: string)
    requires sep !in a
    ensures Split(a + [sep] + b, sep) == [a] + Split(b, sep)
    decreases |a|
  {
    if |a| == 0 {
      assert a + [sep] + b == [sep] + b;
      assert ([sep] + b)[1..] == b;
    } else {
      var s := a + [sep] + b;
      assert s[1..] == a[1..] + [sep] + b;
      SplitCons(a[1..], sep, b);
      assert [a[0]] + a[1..] == a;
    }
  }

  /** Splitting a join of separator-free fields gives the fields back. */
  lemma {:induction false} JoinSplit(fields: seq<string>, sep: char)
    requires |fields| >= 1
    requires forall i :: 0 <= i < |fields| ==> sep !in fields[i]
    ensures Split(Join(fields, sep), sep) == fields
    decreases |fields|
  {
    if |fields| == 1 {
      SplitPlain(fields[0], sep);
    } else {
      JoinSplit(fields[1..], sep);
      SplitCons(fields[0], sep, Join(fields[1..], sep));
      assert [fields[0]] + fields[1..] == fields;
    }
  }

  /** `s.split(sep)[i]`: an index past the last field reads `undefined`. */
  function Field(s: string, sep: char, i: nat): (f: Option<string>)
    ensures f.Some? <==> i <= Occurrences(s, sep)
    ensures f.Some? ==> sep !in f.value
  {
    var fields := Split(s, sep);
    if i < |fields| then Some(fields[i]) else None
  }

  /** The address part of a CAIP-10 account ID `namespace:reference:address`
      (`account.split(':')[2]`). */
  function AccountAddress(account: string): Option<string>
  {
    Field(account, Colon, 2)
  }

  /** The reference part of a CAIP-2 chain ID `namespace:reference`
      (`chain.split(':')[1]`). */
  function ChainReference(chain: string): Option<string>
  {
    Field(chain, Colon, 1)
  }

  /** A well-formed CAIP-10 account ID yields exactly its address part. */
  lemma AccountAddressOfCaip10(namespace: string, reference: string, address: string)
    requires Colon !in namespace && Colon !in reference && Colon !in address
    ensures AccountAddress(namespace + [Colon] + reference + [Colon] + address) == Some(address)
  {
    var fields := [namespace, reference, address];
    assert fields[1..] == [reference, address];
    assert fields[1..][1..] == [address];
    assert Join([address], Colon) == address;
    assert Join([reference, address], Colon) == reference + [Colon] + address;
    assert Join(fields, Colon) == namespace + [Colon] + (reference + [Colon] + address);
    assert namespace + [Colon] + (reference + [Colon] + address)
        == namespace + [Colon] + reference + [Colon] + address;
    JoinSplit(fields, Colon);
  }

  /** A well-formed CAIP-2 chain ID yields exactly its reference part. */
  lemma ChainReferenceOfCaip2(namespace: string, reference: string)
    requires Colon !in namespace && Colon !in reference
    ensures ChainReference(namespace + [Colon] + reference) == Some(reference)
  {
    JoinSplit([namespace, reference], Colon);
  }

  /** Account IDs with fewer than two colons have no address part. */
  lemma AccountAddressMissing(account: string)
    ensures AccountAddress(account).None? <==> Occurrences(account, Colon) < 2
  {
  }
}

=== FILE: js_values.dfy ===
/** Values that JavaScript code can throw, as far as the modelled code inspects them. */
module JsValues {
  import opened Wrappers

  /** A thrown value. `instanceof Error` holds exactly of `ErrorObject`; the optional
      numeric `code` is what wallet providers attach to JSON-RPC errors. */
  datatype Thrown =
    | ErrorObject(message: string, code: Option<int>)
    | OtherValue(code: Option<int>)

  /** `err instanceof Error && err.message === m` */
  predicate HasMessage(t: Thrown, m: string) {
    t.ErrorObject? && t.message == m
  }

  /** `err instanceof Error ? err.message : fallback` */
  function MessageOr(t: Thrown, fallback: string): (m: string)
    ensures t.ErrorObject? ==> HasMessage(t, m)
    ensures t.OtherValue? ==> m == fallback
  {
    match t
    case ErrorObject(message, _) => message
    case OtherValue(_) => fallback
  }

  /** An `Error` raised by the modelled code itself (`new Error(m)`), which carries no code. */
  function Raise(m: string): (t: Thrown)
    ensures HasMessage(t, m)
  {
    ErrorObject(m, None)
  }
}

=== FILE: wallet_connection.dfy ===
/** The connect/disconnect button component (components/WalletConnection.tsx):
    the re-entrancy guard of `handleConnect`, the persisted `walletConnected` flag,
    `handleDisconnect`, the auto-connect effect and `truncateAddress`. */
module WalletConnection {
  import opened JsValues
  import opened AuthContext

  /** The component's own state. `storedFlag` stands for
      `localStorage.getItem('walletConnected') === 'true'`. */
  datatype UiState = UiState(mounted: bool, isConnecting: bool, shouldAutoConnect: bool, storedFlag: bool)

  /** What the component sees: the context's state and its own. */
  datatype View = View(auth: AuthState, ui: UiState)

  /** The component destructures `clientInitialized` from the context, but the
      context value (context/AuthContext.tsx:6-14, 160-171) has no such field, so
      it always reads `undefined`. Every operation below takes the flag as a
      parameter; this constant is the value the context actually supplies. */
  const SuppliedClientInitialized: bool := false

  /** First render: not mounted, not connecting, auto-connect off; the stored flag
      is whatever an earlier page load left behind. */
  function Fresh(auth: AuthState, storedFlag: bool): View {
    View(auth, UiState(false, false, false, storedFlag))
  }

  /** The mount effect. */
  function Mount(v: View): (r: View)
    ensures r.ui.mounted && r.auth == v.auth
  {
    v.(ui := v.ui.(mounted := true))
  }

  /** `handleConnect`. `logIn` catches every rejection itself, so `await logIn()`
      always resolves: the `catch` branch that removes the flag is never reached
      through `logIn` (only a throwing `localStorage.setItem` could reach it, and
      storage is taken not to throw). */
  function HandleConnect(v: View, clientInitialized: bool, outcome: ModalOutcome): (r: View)
    // re-entrancy guard: a call while connecting, or without the client flag, changes nothing
    ensures v.ui.isConnecting || !clientInitialized ==> r == v
    // otherwise exactly one logIn runs, and the flag is persisted whatever its outcome
    ensures !v.ui.isConnecting && clientInitialized ==>
              && r.auth == LogIn(v.auth, outcome)
              && r.ui.storedFlag && r.ui.shouldAutoConnect
              && !r.ui.isConnecting && r.ui.mounted == v.ui.mounted
  {
    if v.ui.isConnecting || !clientInitialized then v
    else
      var connecting := v.ui.(isConnecting := true);
      var auth := LogIn(v.auth, outcome);
      View(auth, connecting.(storedFlag := true, shouldAutoConnect := true, isConnecting := false))
  }

  /** What a second click sees while the first `handleConnect` awaits `logIn`:
      `isConnecting` is already on, whatever the context state is by then. */
  function ConnectInFlight(v: View, auth: AuthState): View {
    View(auth, v.ui.(isConnecting := true))
  }

  /** A click during an in-flight connect opens no second modal and changes nothing,
      so overlapping clicks run `logIn` once. */
  lemma OverlappingConnectIsNoOp(v: View, auth: AuthState, clientInitialized: bool, outcome: ModalOutcome)
    ensures HandleConnect(ConnectInFlight(v, auth), clientInitialized, outcome) == ConnectInFlight(v, auth)
  {
  }

  /** `handleDisconnect`: `logOut` always resolves, then the flag is cleared. */
  function HandleDisconnect(v: View, outcome: DisconnectOutcome): (r: View)
    ensures r.auth == LogOut(v.auth, outcome)
    ensures !r.ui.storedFlag && !r.ui.shouldAutoConnect
    ensures r.ui.mounted == v.ui.mounted && r.ui.isConnecting == v.ui.isConnecting
  {
    View(LogOut(v.auth, outcome), v.ui.(storedFlag := false, shouldAutoConnect := false))
  }

  /** The condition of the auto-connect effect together with the stored flag. */
  predicate AutoConnectFires(v: View, clientInitialized: bool) {
    && v.ui.mounted && clientInitialized && !v.auth.connected && !v.auth.isLoading
    && !v.ui.isConnecting && v.ui.shouldAutoConnect && v.ui.storedFlag
  }

  /** One run of the auto-connect effect. */
  function AutoConnect(v: View, clientInitialized: bool, outcome: ModalOutcome): (r: View)
    ensures !AutoConnectFires(v, clientInitialized) ==> r == v
    // when it fires it runs a whole connect: one logIn, then the flag persisted,
    // auto-connect kept armed and connecting ended
    ensures AutoConnectFires(v, clientInitialized) ==>
              && r.auth == LogIn(v.auth, outcome)
              && r.ui.storedFlag && r.ui.shouldAutoConnect && !r.ui.isConnecting
              && r.ui.mounted == v.ui.mounted
  {
    if AutoConnectFires(v, clientInitialized) then HandleConnect(v, clientInitialized, outcome) else v
  }

  /** Things that happen to the component: its mount, the client's creation, the
      two button handlers, and a re-run of the auto-connect effect. */
  datatype Event =
    | Mounted
    | ClientInit(client: ClientOutcome)
    | ConnectClicked(modal: ModalOutcome)
    | DisconnectClicked(disconnect: DisconnectOutcome)
    | EffectRun(autoModal: ModalOutcome)

  function Step(v: View, clientInitialized: bool, e: Event): View {
    match e
    case Mounted => Mount(v)
    case ClientInit(c) => v.(auth := InitClient(v.auth, c))
    case ConnectClicked(m) => HandleConnect(v, clientInitialized, m)
    case DisconnectClicked(d) => HandleDisconnect(v, d)
    case EffectRun(m) => AutoConnect(v, clientInitialized, m)
  }

  function Run(v: View, clientInitialized: bool, events: seq<Event>): View
    decreases |events|
  {
    if |events| == 0 then v else Run(Step(v, clientInitialized, events[0]), clientInitialized, events[1..])
  }

  /** `truncateAddress`'s `slice(0, 6)` and `slice(-4)`, clamped to the string as
      JavaScript clamps out-of-range and negative indices; lengths count characters. */
  function SliceEnd(a: string, end: nat): string {
    if end <= |a| then a[..end] else a
  }

  function SliceFromBack(a: string, back: nat): string {
    var start := |a| - back;
    if start < 0 then a else a[start..]
  }

  function Min(x: nat, y: nat): nat {
    if x <= y then x else y
  }

  /** `truncateAddress`: the empty string stays empty; otherwise the first six
      characters, `...`, and the last four, each clamped to the address length. */
  function TruncateAddress(a: string): (r: string)
    ensures a == "" ==> r == ""
    ensures a != "" ==>
              var head := Min(6, |a|);
              var tail := Min(4, |a|);
              && |r| == head + 3 + tail
              && r[..head] == a[..head]
              && r[head..head + 3] == "..."
              && r[head + 3..] == a[|a| - tail..]
  {
    if a == "" then "" else SliceEnd(a, 6) + "..." + SliceFromBack(a, 4)
  }

  /** An address of ten or more characters is its truncation's head, the hidden
      middle, and its truncation's tail, in that order. */
  lemma TruncateAddressKeepsEnds(a: string)
    requires |a| >= 10
    ensures var r := TruncateAddress(a);
            |r| == 13 && a == r[..6] + a[6..|a| - 4] + r[9..]
  {
    var r := TruncateAddress(a);
    assert r[..6] == a[..6];
    assert r[9..] == a[|a| - 4..];
    assert a == a[..6] + a[6..|a| - 4] + a[|a| - 4..];
  }

  /** A fresh mount never auto-connects, whatever the stored flag says. */
  lemma FreshMountNeverAutoConnects(auth: AuthState, storedFlag: bool, clientInitialized: bool)
    ensures !AutoConnectFires(Mount(Fresh(auth, storedFlag)), clientInitialized)
  {
  }

  /** Until a click on Connect, `shouldAutoConnect` stays off, so the auto-connect
      effect never fires: only a connect in this component instance arms it. */
  lemma {:induction false} NoAutoConnectBeforeConnectClick(v: View, clientInitialized: bool, events: seq<Event>)
    requires !v.ui.shouldAutoConnect
    requires forall i :: 0 <= i < |events| ==> !events[i].ConnectClicked?
    ensures !Run(v, clientInitialized, events).ui.shouldAutoConnect
    ensures !AutoConnectFires(Run(v, clientInitialized, events), clientInitialized)
    decreases |events|
  {
    if |events| > 0 {
      var next := Step(v, clientInitialized, events[0]);
      assert !AutoConnectFires(v, clientInitialized);
      assert !next.ui.shouldAutoConnect;
      NoAutoConnectBeforeConnectClick(next, clientInitialized, events[1..]);
    }
  }

  /** With the flag the context actually supplies, no sequence of events connects
      a disconnected wallet: the Connect guard always returns early and the
      auto-connect effect never fires. */
  lemma {:induction false} SuppliedFlagNeverConnects(v: View, events: seq<Event>)
    requires !v.auth.connected
    ensures !Run(v, SuppliedClientInitialized, events).auth.connected
    decreases |events|
  {
    if |events| > 0 {
      var next := Step(v, SuppliedClientInitialized, events[0]);
      assert !next.auth.connected;
      SuppliedFlagNeverConnects(next, events[1..]);
    }
  }

  /** Were the client flag supplied, a failed connect would re-arm the effect at
      once: the flag is persisted, `shouldAutoConnect` is on and nothing is
      loading, so the effect fires again. */
  lemma AutoConnectRetriesAfterFailure(v: View, reason: Thrown)
    requires v.ui.mounted && !v.ui.isConnecting && !v.auth.connected
    requires v.auth.clientPresent
    ensures AutoConnectFires(HandleConnect(v, true, ModalRejected(reason)), true)
  {
  }

  /** A connect click whose log-in fails still persists the flag and arms auto-connect. */
  lemma FailedConnectPersistsFlag(v: View, reason: Thrown)
    requires !v.ui.isConnecting && v.auth.clientPresent && !v.auth.connected
    ensures var r := HandleConnect(v, true, ModalRejected(reason));
            !r.auth.connected && r.auth.error.Some? && r.ui.storedFlag && r.ui.shouldAutoConnect
  {
  }
}

=== FILE: web3_service.dfy ===
/** The contract-binding service (services/web3Service.ts): `initialize` with its
    switch to the Flow EVM testnet, the `ensureContractInitialized` gate in front
    of the seven contract operations, and `getWalletAddress`. The wallet
    provider's replies, the ethers conversions and the contract itself are
    inputs; the service is a record whose `contract` field is bound or not. */
module Web3Service {
  import opened Wrappers
  import opened JsValues

  const NotInitializedMessage := "Contract not initialized. Call initialize() first."
  /** The provider error code for "unrecognized chain ID" that triggers an add-chain request. */
  const UnrecognizedChainCode: int := 4902

  /** The parameters of a `wallet_addEthereumChain` request. */
  datatype ChainParams = ChainParams(
    chainId: string,
    chainName: string,
    currencyName: string,
    currencySymbol: string,
    decimals: nat,
    rpcUrls: seq<string>,
    blockExplorerUrls: seq<string>)

  /** The one network the service switches to: the Flow EVM testnet. */
  const FlowTestnet: ChainParams := ChainParams(
    "0x221", "EVM on Flow Testnet", "FLOW", "FLOW", 18,
    ["https://testnet.evm.nodes.onflow.org"], ["https://evm-testnet.flowscan.io"])

  /** The value of a hexadecimal digit, if `c` is one. */
  function HexDigit(c: char): Option<nat> {
    if '0' <= c <= '9' then Some(c as nat - '0' as nat)
    else if 'a' <= c <= 'f' then Some(c as nat - 'a' as nat + 10)
    else if 'A' <= c <= 'F' then Some(c as nat - 'A' as nat + 10)
    else None
  }

  /** The value of a string of hexadecimal digits, read most significant first. */
  function HexDigits(s: string): Option<nat>
    decreases |s|
  {
    if |s| == 0 then Some(0)
    else
      match (HexDigits(s[..|s| - 1]), HexDigit(s[|s| - 1]))
      case (Some(high), Some(low)) => Some(high * 16 + low)
      case _ => None
  }

  /** An Ethereum JSON-RPC quantity: `0x` followed by at least one hex digit. */
  function HexQuantity(s: string): Option<nat> {
    if |s| > 2 && s[..2] == "0x" then HexDigits(s[2..]) else None
  }

  /** The chain ID `0x221` is network 545, and its native currency has 18 decimals. */
  lemma FlowTestnetIsChain545()
    ensures HexQuantity(FlowTestnet.chainId) == Some(545)
    ensures FlowTestnet.decimals == 18
  {
    assert FlowTestnet.chainId[2..] == "221";
    assert "221"[..2] == "22" && "22"[..1] == "2" && "2"[..0] == "";
  }

  /** A JSON-RPC request sent through the injected provider's `request`. */
  datatype RpcRequest = SwitchEthereumChain(chainId: string) | AddEthereumChain(chain: ChainParams)

  /** How one `provider.request` settled. */
  datatype RpcReply = Accepted | Refused(reason: Thrown)

  /** The requests a step sent, in order, and what it threw, if anything. */
  datatype RpcRun = RpcRun(requests: seq<RpcRequest>, failure: Option<Thrown>)

  /** `error.code === 4902` */
  predicate UnrecognizedChain(t: Thrown) {
    t.code == Some(UnrecognizedChainCode)
  }

  /** `switchToFlowTestnet`: ask to switch; on an unrecognized-chain error, ask
      once to add the network; rethrow anything else. `addReply` is only consulted
      when the add request is sent. */
  function SwitchToFlowTestnet(switchReply: RpcReply, addReply: RpcReply): (r: RpcRun)
    ensures 1 <= |r.requests| <= 2
    ensures r.requests[0] == SwitchEthereumChain(FlowTestnet.chainId)
    ensures |r.requests| == 2 <==> switchReply.Refused? && UnrecognizedChain(switchReply.reason)
    ensures |r.requests| == 2 ==> r.requests[1] == AddEthereumChain(FlowTestnet)
    ensures switchReply.Accepted? ==> r.failure.None?
    ensures switchReply.Refused? && !UnrecognizedChain(switchReply.reason) ==> r.failure == Some(switchReply.reason)
    ensures |r.requests| == 2 ==> (r.failure.None? <==> addReply.Accepted?)
    ensures |r.requests| == 2 && addReply.Refused? ==> r.failure == Some(addReply.reason)
  {
    var switching := SwitchEthereumChain(FlowTestnet.chainId);
    match switchReply
    case Accepted => RpcRun([switching], None)
    case Refused(t) =>
      if UnrecognizedChain(t) then
        var adding := AddEthereumChain(FlowTestnet);
        (match addReply
         case Accepted => RpcRun([switching, adding], None)
         case Refused(t') => RpcRun([switching, adding], Some(t')))
      else RpcRun([switching], Some(t))
  }

  /** The platforms `initialize` accepts; `Web` is its default. */
  datatype Platform = Web | Telegram

  /** The provider object the caller injects (opaque). */
  datatype ProviderRef = ProviderRef(id: nat)

  /** The service's `provider` field: unset, an ethers `BrowserProvider` wrapping the
      injected provider, or the injected provider itself. */
  datatype ProviderSlot = NoProvider | Browser(wrapped: ProviderRef) | Injected(raw: ProviderRef)

  /** The signer the contract is bound to. */
  datatype Signer = BrowserSigner(of: ProviderRef) | RawSigner(raw: ProviderRef)

  /** A contract instance at the configured address, connected to a signer. */
  datatype Binding = Binding(signer: Signer)

  /** The service's three private fields; `contract` is the gate. */
  datatype Service = Service(provider: ProviderSlot, signer: Option<Signer>, contract: Option<Binding>)

  /** The singleton as first constructed. */
  const Unbound: Service := Service(NoProvider, None, None)

  /** What `initialize` sent, the service afterwards, and what it rethrew. */
  datatype InitRun = InitRun(requests: seq<RpcRequest>, service: Service, failure: Option<Thrown>)

  /** `initialize(provider, platform)`. `signerReply` is how `getSigner()` settles
      on the web path; it is not consulted for Telegram. */
  function Initialize(svc: Service, injected: ProviderRef, platform: Platform,
                      switchReply: RpcReply, addReply: RpcReply, signerReply: RpcReply): (r: InitRun)
    // the network switch is always attempted first, on both platforms
    ensures r.requests == SwitchToFlowTestnet(switchReply, addReply).requests
    // a failed switch is rethrown before any field is assigned
    ensures SwitchToFlowTestnet(switchReply, addReply).failure.Some? ==>
              r.service == svc && r.failure == SwitchToFlowTestnet(switchReply, addReply).failure
    // success binds a contract to the signer of the chosen platform
    ensures r.failure.None? <==>
              SwitchToFlowTestnet(switchReply, addReply).failure.None? && (platform.Telegram? || signerReply.Accepted?)
    ensures r.failure.None? ==>
              r.service.contract == Some(Binding(if platform.Web? then BrowserSigner(injected) else RawSigner(injected)))
    // and sets the provider and signer fields the address lookup depends on
    ensures r.failure.None? ==>
              && r.service.provider == (if platform.Web? then Browser(injected) else Injected(injected))
              && r.service.signer == Some(if platform.Web? then BrowserSigner(injected) else RawSigner(injected))
    // a getSigner failure is rethrown as is
    ensures platform.Web? && SwitchToFlowTestnet(switchReply, addReply).failure.None? && signerReply.Refused? ==>
              r.failure == Some(signerReply.reason)
    // a failure never changes the binding
    ensures r.failure.Some? ==> r.service.contract == svc.contract && r.service.signer == svc.signer
    // only a web-path getSigner failure has already replaced the provider
    ensures r.failure.Some? ==>
              r.service.provider == (if SwitchToFlowTestnet(switchReply, addReply).failure.None? then Browser(injected)
                                     else svc.provider)
  {
    var switched := SwitchToFlowTestnet(switchReply, addReply);
    if switched.failure.Some? then InitRun(switched.requests, svc, switched.failure)
    else
      match platform
      case Web =>
        var wrapped := svc.(provider := Browser(injected));
        (match signerReply
         case Refused(t) => InitRun(switched.requests, wrapped, Some(t))
         case Accepted =>
           var signer := BrowserSigner(injected);
           InitRun(switched.requests, wrapped.(signer := Some(signer), contract := Some(Binding(signer))), None))
      case Telegram =>
        var signer := RawSigner(injected);
        InitRun(switched.requests, Service(Injected(injected), Some(signer), Some(Binding(signer))), None)
  }

  /** The ethers helpers the operations use, as opaque functions: `parseEther`
      (which may throw on malformed input) and `formatEther`. */
  datatype Ethers = Ethers(parseEther: string -> Result<int, Thrown>, formatEther: int -> string)

  /** A mined transaction's receipt (opaque). */
  datatype Receipt = Receipt(id: nat)

  /** One entry of the contract's schedule list, returned to the caller unchanged (opaque). */
  datatype ScheduleRecord = ScheduleRecord(id: nat)

  /** A call on the bound contract, with its arguments as sent. */
  datatype ContractCall =
    | DepositCall(value: int)
    | WithdrawCall(amount: int)
    | CreatePaymentScheduleCall(recipient: string, amount: int, frequency: int, nextPaymentDate: int,
                                conditionType: int, conditionValue: int, paymentType: string)
    | PayNowCall(recipient: string, amount: int, paymentType: string)
    | GetUserBalanceCall
    | GetUserPaymentSchedulesCall
    | ExecutePaymentCall(index: int)

  /** The contract's behaviour, as inputs: how a transaction settles once submitted
      and awaited (`tx.wait()`), and what the two read calls return. */
  datatype Contract = Contract(
    transact: ContractCall -> Result<Receipt, Thrown>,
    balance: Result<int, Thrown>,
    schedules: Result<seq<ScheduleRecord>, Thrown>)

  /** The seven operations of the service, with the caller's arguments. */
  datatype Operation =
    | Deposit(amount: string)
    | Withdraw(amount: string)
    | CreatePaymentSchedule(recipient: string, amount: string, frequency: int, nextPaymentDate: int,
                            conditionType: int, conditionValue: string, paymentType: string)
    | PayNow(recipient: string, amount: string, paymentType: string)
    | GetUserBalance
    | GetPaymentSchedules
    | ExecutePayment(index: int)

  /** What an operation resolves with. */
  datatype OpValue = Confirmed(receipt: Receipt) | BalanceText(text: string) | Schedules(items: seq<ScheduleRecord>)

  /** The contract calls an operation made, and how it settled. */
  datatype OpRun = OpRun(calls: seq<ContractCall>, result: Result<OpValue, Thrown>)

  /** Every decimal amount of `op` is accepted by `parseEther`. */
  predicate AmountsParse(ethers: Ethers, op: Operation) {
    match op
    case Deposit(a) => ethers.parseEther(a).Success?
    case Withdraw(a) => ethers.parseEther(a).Success?
    case CreatePaymentSchedule(_, a, _, _, _, c, _) => ethers.parseEther(a).Success? && ethers.parseEther(c).Success?
    case PayNow(_, a, _) => ethers.parseEther(a).Success?
    case _ => true
  }

  /** The error of the first `parseEther` that throws, taking the amounts of `op`
      in argument order; `None` when every amount converts. */
  function FirstParseFailure(ethers: Ethers, op: Operation): (r: Option<Thrown>)
    ensures r.None? <==> AmountsParse(ethers, op)
    ensures r.Some? && op.CreatePaymentSchedule? && ethers.parseEther(op.amount).Success? ==>
              r.value == ethers.parseEther(op.conditionValue).error
  {
    var amounts :=
      match op
      case Deposit(a) => [a]
      case Withdraw(a) => [a]
      case CreatePaymentSchedule(_, a, _, _, _, c, _) => [a, c]
      case PayNow(_, a, _) => [a]
      case _ => [];
    if |amounts| >= 1 && ethers.parseEther(amounts[0]).Failure? then Some(ethers.parseEther(amounts[0]).error)
    else if |amounts| == 2 && ethers.parseEther(amounts[1]).Failure? then Some(ethers.parseEther(amounts[1]).error)
    else None
  }

  /** A call that submits a transaction, as opposed to the two reads. */
  predicate IsTransaction(call: ContractCall) {
    !call.GetUserBalanceCall? && !call.GetUserPaymentSchedulesCall?
  }

  /** `call` is the contract call for `op`: the same kind, every decimal amount
      converted by `parseEther`, every other argument passed through unchanged. */
  predicate Marshals(ethers: Ethers, op: Operation, call: ContractCall) {
    match op
    case Deposit(a) =>
      ethers.parseEther(a).Success? && call == DepositCall(ethers.parseEther(a).value)
    case Withdraw(a) =>
      ethers.parseEther(a).Success? && call == WithdrawCall(ethers.parseEther(a).value)
    case CreatePaymentSchedule(recipient, a, frequency, date, conditionType, c, paymentType) =>
      && ethers.parseEther(a).Success? && ethers.parseEther(c).Success?
      && call == CreatePaymentScheduleCall(recipient, ethers.parseEther(a).value, frequency, date,
                                           conditionType, ethers.parseEther(c).value, paymentType)
    case PayNow(recipient, a, paymentType) =>
      ethers.parseEther(a).Success? && call == PayNowCall(recipient, ethers.parseEther(a).value, paymentType)
    case GetUserBalance => call == GetUserBalanceCall
    case GetPaymentSchedules => call == GetUserPaymentSchedulesCall
    case ExecutePayment(i) => call == ExecutePaymentCall(i)
  }

  /** Submit a transaction and wait for it. */
  function Transact(contract: Contract, call: ContractCall): OpRun {
    OpRun([call], match contract.transact(call)
                  case Success(receipt) => Success(Confirmed(receipt))
                  case Failure(t) => Failure(t))
  }

  /** An operation once the gate has let it through. */
  function Dispatch(ethers: Ethers, contract: Contract, op: Operation): OpRun {
    match op
    case Deposit(a) =>
      (match ethers.parseEther(a)
       case Failure(t) => OpRun([], Failure(t))
       case Success(v) => Transact(contract, DepositCall(v)))
    case Withdraw(a) =>
      (match ethers.parseEther(a)
       case Failure(t) => OpRun([], Failure(t))
       case Success(v) => Transact(contract, WithdrawCall(v)))
    case CreatePaymentSchedule(recipient, a, frequency, date, conditionType, c, paymentType) =>
      (match ethers.parseEther(a)
       case Failure(t) => OpRun([], Failure(t))
       case Success(v) =>
         (match ethers.parseEther(c)
          case Failure(t) => OpRun([], Failure(t))
          case Success(w) =>
            Transact(contract, CreatePaymentScheduleCall(recipient, v, frequency, date, conditionType, w, paymentType))))
    case PayNow(recipient, a, paymentType) =>
      (match ethers.parseEther(a)
       case Failure(t) => OpRun([], Failure(t))
       case Success(v) => Transact(contract, PayNowCall(recipient, v, paymentType)))
    case GetUserBalance =>
      OpRun([GetUserBalanceCall], match contract.balance
                                  case Success(wei) => Success(BalanceText(ethers.formatEther(wei)))
                                  case Failure(t) => Failure(t))
    case GetPaymentSchedules =>
      OpRun([GetUserPaymentSchedulesCall], match contract.schedules
                                           case Success(items) => Success(Schedules(items))
                                           case Failure(t) => Failure(t))
    case ExecutePayment(i) => Transact(contract, ExecutePaymentCall(i))
  }

  /** One operation on the service: `ensureContractInitialized`, then the call. */
  function Perform(svc: Service, ethers: Ethers, contract: Contract, op: Operation): (r: OpRun)
    // the gate: without a bound contract nothing is converted or called
    ensures svc.contract.None? ==> r.calls == [] && r.result == Failure(Raise(NotInitializedMessage))
    // at most one contract call, and it is the one the operation stands for
    ensures |r.calls| <= 1
    ensures |r.calls| == 1 ==> svc.contract.Some? && Marshals(ethers, op, r.calls[0])
    // a bound contract is called exactly when every amount converts
    ensures svc.contract.Some? ==> (|r.calls| == 1 <==> AmountsParse(ethers, op))
    // every success comes from the contract
    ensures r.result.Success? ==> |r.calls| == 1
    // a conversion error is rethrown, the first one in argument order
    ensures svc.contract.Some? && FirstParseFailure(ethers, op).Some? ==>
              r.result == Failure(FirstParseFailure(ethers, op).value)
    // a transaction resolves with the receipt `tx.wait()` gives, or rethrows its error
    ensures |r.calls| == 1 && IsTransaction(r.calls[0]) ==>
              && (r.result.Success? <==> contract.transact(r.calls[0]).Success?)
              && (r.result.Success? ==> r.result.value == Confirmed(contract.transact(r.calls[0]).value))
              && (r.result.Failure? ==> r.result.error == contract.transact(r.calls[0]).error)
    // the balance read resolves with `formatEther` of the raw balance, or rethrows
    ensures svc.contract.Some? && op.GetUserBalance? ==>
              && r.calls == [GetUserBalanceCall]
              && (r.result.Success? <==> contract.balance.Success?)
              && (r.result.Success? ==> r.result.value == BalanceText(ethers.formatEther(contract.balance.value)))
              && (r.result.Failure? ==> r.result.error == contract.balance.error)
    // the schedule read resolves with the contract's list unchanged, or rethrows
    ensures svc.contract.Some? && op.GetPaymentSchedules? ==>
              && r.calls == [GetUserPaymentSchedulesCall]
              && (r.result.Success? <==> contract.schedules.Success?)
              && (r.result.Success? ==> r.result.value == Schedules(contract.schedules.value))
              && (r.result.Failure? ==> r.result.error == contract.schedules.error)
  {
    if svc.contract.None? then OpRun([], Failure(Raise(NotInitializedMessage)))
    else Dispatch(ethers, contract, op)
  }

  /** `createPaymentSchedule` converts `amount` before `conditionValue`: when both
      are malformed, the amount's error is the one thrown, and nothing is called. */
  lemma CreateScheduleConvertsAmountFirst(svc: Service, ethers: Ethers, contract: Contract,
                                          recipient: string, amount: string, frequency: int, date: int,
                                          conditionType: int, conditionValue: string, paymentType: string)
    requires svc.contract.Some?
    requires ethers.parseEther(amount).Failure?
    ensures var r := Perform(svc, ethers, contract,
                             CreatePaymentSchedule(recipient, amount, frequency, date, conditionType, conditionValue, paymentType));
            r.calls == [] && r.result == Failure(ethers.parseEther(amount).error)
  {
  }

  /** `createPaymentSchedule` applies the same conversion to both amounts: equal
      decimal strings reach the contract as equal integers. */
  lemma CreateScheduleSameConversion(svc: Service, ethers: Ethers, contract: Contract,
                                     recipient: string, amount: string, frequency: int, date: int,
                                     conditionType: int, paymentType: string)
    requires svc.contract.Some? && ethers.parseEther(amount).Success?
    ensures var r := Perform(svc, ethers, contract,
                             CreatePaymentSchedule(recipient, amount, frequency, date, conditionType, amount, paymentType));
            |r.calls| == 1 && r.calls[0].amount == r.calls[0].conditionValue
            && r.calls[0].recipient == recipient && r.calls[0].frequency == frequency
            && r.calls[0].nextPaymentDate == date && r.calls[0].conditionType == conditionType
            && r.calls[0].paymentType == paymentType
  {
    var op := CreatePaymentSchedule(recipient, amount, frequency, date, conditionType, amount, paymentType);
    var r := Perform(svc, ethers, contract, op);
    assert AmountsParse(ethers, op);
    assert Marshals(ethers, op, r.calls[0]);
  }

  /** Before any successful `initialize`, every operation fails with the gate's
      error and calls nothing; after one, every operation whose amounts convert
      reaches the contract. */
  lemma InitializeOpensGate(injected: ProviderRef, platform: Platform, switchReply: RpcReply, addReply: RpcReply,
                            signerReply: RpcReply, ethers: Ethers, contract: Contract, op: Operation)
    ensures var r := Perform(Unbound, ethers, contract, op);
            r.calls == [] && r.result == Failure(Raise(NotInitializedMessage))
    ensures var init := Initialize(Unbound, injected, platform, switchReply, addReply, signerReply);
            init.failure.None? && AmountsParse(ethers, op) ==> |Perform(init.service, ethers, contract, op).calls| == 1
    ensures var init := Initialize(Unbound, injected, platform, switchReply, addReply, signerReply);
            init.failure.Some? ==> Perform(init.service, ethers, contract, op).calls == []
  {
  }

  /** On the web path a `getSigner` failure is rethrown after the provider field
      was already replaced; the signer and the contract binding keep their values. */
  lemma SignerFailureReplacesOnlyProvider(svc: Service, injected: ProviderRef, switchReply: RpcReply,
                                          addReply: RpcReply, t: Thrown)
    requires SwitchToFlowTestnet(switchReply, addReply).failure.None?
    ensures var r := Initialize(svc, injected, Web, switchReply, addReply, Refused(t));
            r.service == svc.(provider := Browser(injected)) && r.failure == Some(t)
  {
  }

  /** `getWalletAddress` never throws: it yields the signer's address exactly when a
      contract is bound, the provider is a `BrowserProvider`, and the lookup succeeds,
      and `null` otherwise. `lookup` is how `getSigner().getAddress()` settles. */
  function GetWalletAddress(svc: Service, lookup: Result<string, Thrown>): (r: Option<string>)
    ensures r.Some? <==> svc.contract.Some? && svc.provider.Browser? && lookup.Success?
    ensures r.Some? ==> r.value == lookup.value
  {
    if svc.contract.None? then None
    else if !svc.provider.Browser? then None
    else match lookup
         case Success(address) => Some(address)
         case Failure(_) => None
  }

  /** After a Telegram initialization the service reports no address. */
  lemma TelegramHasNoWalletAddress(svc: Service, injected: ProviderRef, switchReply: RpcReply, addReply: RpcReply,
                                   signerReply: RpcReply, lookup: Result<string, Thrown>)
    ensures var init := Initialize(svc, injected, Telegram, switchReply, addReply, signerReply);
            init.failure.None? ==> GetWalletAddress(init.service, lookup).None?
  {
  }

  /** After a web initialization the service reports what the signer lookup
      settles with: its address, or null when the lookup throws. */
  lemma WebReportsSignerAddress(svc: Service, injected: ProviderRef, switchReply: RpcReply, addReply: RpcReply,
                                signerReply: RpcReply, lookup: Result<string, Thrown>)
    ensures var init := Initialize(svc, injected, Web, switchReply, addReply, signerReply);
            init.failure.None? ==>
              GetWalletAddress(init.service, lookup) == (if lookup.Success? then Some(lookup.value) else None)
  {
  }
}

=== FILE: wrappers.dfy ===
/** Failure-compatible wrappers shared by every module of the model. */
module Wrappers {

  /** A value that may be absent: JavaScript's `null` and `undefined` both map to `None`. */
  datatype Option<+T> = None | Some(value: T)

  /** The settled value of an operation that may throw. */
  datatype Result<+R, +E> = Success(value: R) | Failure(error: E)
}
